=== FILE: README.md ===
# Product store model

A Dafny model of the product store of Store-API-FastAPI-DIO-Python-Backend: a FastAPI
application whose `/products` routes call a `ProductUsecase` over a MongoDB `products`
collection, with pydantic schemas for the payloads.

The model treats the collection as a finite map from product id to document, plus the order
in which `find()` yields documents. Each usecase (`create`, `get`, `query`, `get_by_price`,
`update`, `delete`) is a pure function from a store and the call's arguments to the next
store and an outcome: the value returned, or the exception raised (`BadRequestException`,
`NotFoundException`). Read-only usecases return only the outcome, so they cannot change the
store. The Mongo calls are read by their documented meaning:

- `find_one` is a lookup by id;
- `find` with `$gt`/`$lt` is a strict range filter;
- `find_one_and_update` with `$set` and `ReturnDocument.AFTER` overwrites only the supplied
  fields and returns the document after the update;
- `delete_one` removes the key.

The route handlers map each outcome to an HTTP status and body. They translate only the
exceptions their `except` clauses name; any other exception propagates. The price-filter
route supplies the defaults `4.500` and `8.000`.

The clock and the id source are parameters (`now`, `freshId`).

Prices are exact decimals (sign, coefficient, scale), as `decimal.Decimal` holds them. They
are compared by their exact rational value. Ids are 128-bit numbers, printed in the canonical
8-4-4-4-12 lower-case hex form that `str(uuid)` gives.

Files, one module each:

- `options.dfy`: optional values and parse results.
- `decimals.dfy`: decimals, `str(Decimal)` and reading it back.
- `uuids.dfy`: ids and their text.
- `exceptions.dfy`: the exceptions and usecase outcomes.
- `product_schema.dfy`: the schemas, create-payload validation, partial update, price filter.
- `product_usecase.dfy`: the store and the usecases.
- `product_controller.dfy`: the routes.

Three behaviours of the code worth stating:

- A price bound of `None` in `get_by_price` is passed straight into `$gt`/`$lt`. It does not
  mean "unconstrained". The model requires both bounds, which the route always supplies.
- Nothing keeps `updated_at` at or after `created_at`: a patch payload may carry any
  `updated_at`. `ProductUsecase.UpdatedBeforeCreated` exhibits this.
- Re-validation inside `create` cannot fail for a `ProductIn` that arrives through the HTTP
  route (`ProductController.HandleCreate`). The 400 answer is reachable only when a caller
  changes a field of an already-validated `ProductIn`, as one of the usecase tests does.

## Model

| member | source | states |
|---|---|---|
| `Decimals.ParseFormat` | store/schemas/product_schema.py:26-27 | reading back the text `str` prints for any decimal gives the same decimal, sign, digits and scale included, so converting through the string form loses nothing |
| `Decimals.FormatInjective` | store/schemas/product_schema.py:26-27 | two decimals that print the same are the same decimal |
| `Decimals.ToDecimal128` | store/schemas/product_schema.py:26-30 | the price normalisation returns exactly the decimal it was given, scale included |
| `Decimals.Format` | store/schemas/product_schema.py:27 | `str(v)` in plain notation: the text starts with `-` exactly for a negative decimal, has its point exactly `scale` places from the end when the scale is positive, and holds digits everywhere else. The integer part is never empty and has no leading zeros: it starts with `0` only when it is exactly `0` |
| `Decimals.Parse` | store/schemas/product_schema.py:14 | a text is read as a decimal exactly when it is an optional `+` or `-`, then ASCII digits with at most one point and at least one digit (`1.`, `.5` and `-0` are decimals; `+`, `.`, `1.2.3` are not). The decimal is negative exactly when the text starts with `-` |
| `Decimals.PointTextValue` | store/schemas/product_schema.py:14 | a text `w.f`, with or without a sign, denotes the digits of `w` and `f` read as one coefficient at scale `len(f)`; it is negative only with `-` |
| `Decimals.WholeTextValue` | store/schemas/product_schema.py:14 | a text of digits without a point, with or without a sign, denotes those digits at scale 0; it is negative only with `-` |
| `Decimals.PlusSignText` | store/schemas/product_schema.py:14 | a leading `+` changes nothing: the text is read as the same decimal, or rejected alike, without it |
| `Decimals.LeadingZeroText` | store/schemas/product_schema.py:14 | a leading zero changes nothing: `07.5` is read as `7.5` and `0.5` as `.5` |
| `Decimals.NotAPrice` | tests/usecases/test_product_usecase.py:19 | the text `incorrect value` is not a decimal |
| `Decimals.ListPrice` | tests/controllers/test_product_controller.py:20 | the stored list price prints as `8500.00` |
| `Decimals.PatchPrice` | tests/controllers/test_product_controller.py:73-85 | the patched price prints as `7.500`, the text that was sent |
| `Uuids.Text` | store/usecases/product_usercase.py:32 | `str(id)`: 36 characters with hyphens at positions 8, 13, 18 and 23; the other 32 characters are the id's 32 lower-case hex digits, most significant first |
| `Uuids.ParseText` | store/usecases/product_usercase.py:32 | the canonical text of an id reads back as that id |
| `Uuids.TextInjective` | tests/usecases/test_product_usecase.py:36-40 | different ids have different texts |
| `ProductSchema.NewProduct` | store/usecases/product_usercase.py:22 | the document built on create carries the four input fields unchanged, the fresh id, and creation and update times both equal to the clock's reading |
| `ProductSchema.ValidateProductIn` | store/schemas/product_schema.py:11-19 | validation succeeds exactly when each of name, quantity, price and status is present and of an accepted kind. On success the fields are the payload's values. On failure there is at least one error; every error names a required field and the fault it has; every faulty field is reported, once, and the report follows the declaration order name, quantity, price, status; a missing field is reported as `missing` |
| `ProductSchema.ErrorsInFieldOrder` | store/schemas/product_schema.py:12-15 | per-field reports of at most one entry each, joined in the declaration order of the fields, name each field at most once and in that order |
| `ProductSchema.ValidateDump` | store/usecases/product_usercase.py:22 | validating the dump of a `ProductIn` again gives back the same input |
| `ProductSchema.ExtraKeysIgnored` | tests/conftest.py:55-57 | keys other than the four fields, such as an `id`, do not change the validation result |
| `ProductSchema.MissingStatus` | tests/schemas/test_product_schema.py:15-27 | a payload with name, quantity and price but no status fails with exactly one error: `status` is `missing` |
| `ProductSchema.BadPriceText` | tests/usecases/test_product_usecase.py:18-26 | an input whose price is replaced by a non-decimal text fails with exactly one error: `decimal_parsing` on `price` |
| `ProductSchema.NewUpdate` | store/schemas/product_schema.py:33-37 | a patch payload keeps quantity, price, status and updated_at exactly as given; the price keeps its scale through `convert_decimal_128` |
| `ProductSchema.NewUpdateSets` | store/usecases/product_usercase.py:56 | a validated patch body sets exactly the fields that were given, so `model_dump(exclude_none=True)` drops exactly the absent ones |
| `ProductSchema.PatchedPriceText` | tests/controllers/test_product_controller.py:72-87 | a price patched in as `7.500` is stored with its scale and prints as `7.500` again |
| `ProductSchema.SetsUpdatable` | store/schemas/product_schema.py:33-37 | a patch payload can set only quantity, price, status and updated_at, and the all-None payload sets nothing |
| `ProductSchema.Apply` | store/usecases/product_usercase.py:54-58 | `$set` of the non-None fields: the result holds each supplied value, and agrees with the old document in every field the payload does not set |
| `ProductSchema.ApplyUnique` | store/usecases/product_usercase.py:54-58 | any document that holds the supplied values and agrees with the old one elsewhere is the result of the update, so the update is fully determined by the payload |
| `ProductSchema.ApplyKeepsIdentity` | store/schemas/product_schema.py:33-37 | an update never changes id, name or created_at |
| `ProductSchema.ApplyIdempotent` | store/usecases/product_usercase.py:54-58 | applying the same payload twice gives the same document as applying it once |
| `ProductSchema.ApplyNoChanges` | store/usecases/product_usercase.py:54-58 | the all-None payload leaves the document as it is |
| `ProductSchema.NewFilter` | store/schemas/product_schema.py:40-42 | a filter keeps each bound exactly as given, absent or present |
| `ProductUsecase.NotFoundMessage` | store/usecases/product_usercase.py:32 | the not-found message is the fixed prefix `Product not found with filter: ` followed by the 36 characters of the id's text |
| `ProductUsecase.NotFoundMessageNamesId` | store/usecases/product_usercase.py:32 | what follows the prefix in the not-found message reads back as the id |
| `ProductUsecase.BadRequestMessage` | store/usecases/product_usercase.py:25-26 | the bad-request message is the prefix `errors: ` followed by a bracketed list, which is `[]` exactly when there are no errors |
| `ProductUsecase.NotFoundMessageInjective` | store/usecases/product_usercase.py:32 | the not-found message determines the id it names |
| `ProductUsecase.Without` | store/usecases/product_usercase.py:70 | removing an id from the collection order keeps every other id, and no id becomes repeated |
| `ProductUsecase.Create` | store/usecases/product_usercase.py:20-26 | a validation failure raises BadRequest with `errors: ` and the rendered error list, and leaves the store unchanged. On success it returns a document with the input's fields, the fresh id and both timestamps at now; that document is stored under the fresh id and appended to the order; the store grows by exactly one |
| `ProductUsecase.Get` | store/usecases/product_usercase.py:28-34 | succeeds exactly when the id is stored and returns that document; otherwise raises NotFound with `Product not found with filter: ` and the id's text |
| `ProductUsecase.Query` | store/usecases/product_usercase.py:36-37 | returns one document per stored record; each is the document stored under its id, every stored document appears, and no id appears twice. The documents come in the store's `order`, the order in which `find()` yields them |
| `ProductUsecase.Within` | store/usecases/product_usercase.py:39-47 | keeps exactly the documents strictly inside the price bounds, without introducing repeated ids |
| `ProductUsecase.GetByPrice` | store/usecases/product_usercase.py:39-47 | a document is returned exactly when it is stored and `min_price < price < max_price`; each is returned once |
| `ProductUsecase.Update` | store/usecases/product_usercase.py:49-63 | succeeds exactly when the id is stored. On failure it raises NotFound with the standard message and the store is unchanged. On success only that document is replaced, by one that holds every supplied field, has `updated_at` set to the payload's value or else to now, and agrees with the old document in every other field; the order is unchanged and the new document is returned |
| `ProductUsecase.Delete` | store/usecases/product_usercase.py:65-72 | succeeds exactly when the id is stored; it returns true and removes exactly that key from the records and the order. Otherwise it raises NotFound and the store is unchanged |
| `ProductUsecase.RecordCount` | store/usecases/product_usercase.py:36-37 | a valid store holds as many documents as `find()` yields |
| `ProductUsecase.CreatePreservesValid` | store/usecases/product_usercase.py:20-24 | create keeps every document listed once under its own id |
| `ProductUsecase.UpdatePreservesValid` | store/usecases/product_usercase.py:54-58 | update keeps every document listed once under its own id |
| `ProductUsecase.DeletePreservesValid` | store/usecases/product_usercase.py:70 | delete keeps every document listed once under its own id |
| `ProductUsecase.CreateBadPrice` | tests/usecases/test_product_usecase.py:18-26 | create with a non-decimal price text raises BadRequest whose message starts with `errors: ` and renders the one `decimal_parsing` error on `price`; the store is unchanged |
| `ProductUsecase.CreateThenGet` | store/usecases/product_usercase.py:20-34 | a created document is returned by get under its id, exactly as create returned it |
| `ProductUsecase.CreateThenDelete` | store/usecases/product_usercase.py:65-72 | deleting what create just inserted returns true and restores the store exactly |
| `ProductUsecase.DeleteTwice` | tests/usecases/test_product_usecase.py:97-107 | after a successful delete, deleting or getting the same id raises NotFound and changes nothing |
| `ProductUsecase.UpdateThenGet` | store/usecases/product_usercase.py:54-63 | after an update, get returns the document the update returned |
| `ProductUsecase.UpdateIdempotent` | store/usecases/product_usercase.py:54-58 | repeating an update with the same payload and clock gives the same store and result |
| `ProductUsecase.UpdateTouchesOne` | store/usecases/product_usercase.py:54-58 | an update keeps the set of ids, and every document other than the target |
| `ProductUsecase.UpdatedBeforeCreated` | store/usecases/product_usercase.py:51-52 | a payload's explicit `updated_at` is stored even when it is earlier than `created_at` |
| `ProductController.SuccessStatus` | store/controllers/product_controller.py:13-57 | a successful request answers with a 2xx status: 201 exactly for create, 204 exactly for delete, and 200 otherwise |
| `ProductController.Respond` | store/controllers/product_controller.py:13-62 | a success answers with the route's status. A failure answers 400 exactly when the route is create and the error is BadRequest, and 404 exactly when the route is get, patch or delete and the error is NotFound; the detail is the exception's message. Every other failure propagates unchanged |
| `ProductController.HandleCreate` | store/controllers/product_controller.py:13-18 | over the in-memory store, a typed body is always answered 201 with a new document that carries the body's fields, the fresh id and both timestamps at now; it is now stored and appended to the order |
| `ProductController.HandleGet` | store/controllers/product_controller.py:21-26 | 200 with the stored document, or 404 with the not-found message; the store is unchanged |
| `ProductController.HandleQuery` | store/controllers/product_controller.py:29-31 | always 200 with a list that has one entry per stored document and contains each of them |
| `ProductController.DefaultTexts` | store/controllers/product_controller.py:36-37 | the default bounds are the decimals the texts `4.500` and `8.000` denote |
| `ProductController.HandleFilterPrice` | store/controllers/product_controller.py:34-42 | always 200. An omitted bound becomes its default, and the list holds exactly the stored documents strictly between the two bounds |
| `ProductController.HandlePatch` | store/controllers/product_controller.py:45-54 | 200 with the updated document, now stored in place of the old one: it holds every supplied field, `updated_at` is the payload's or else now, and every other field keeps its old value; the order is unchanged. Otherwise 404 with the not-found message and the store unchanged |
| `ProductController.HandleDelete` | store/controllers/product_controller.py:57-62 | 204 with no body and the document removed, or 404 with the not-found message and the store unchanged |
| `ProductController.PatchPriceStep` | tests/controllers/test_product_controller.py:72-87 | a price-only patch of a stored document answers 200 with that document, changed only in price and updated_at, and stores it in place |
| `ProductController.DeleteRestores` | tests/controllers/test_product_controller.py:97-107 | deleting the one document added to a store answers 204 and gives that store back exactly |
| `ProductController.Lifecycle` | tests/controllers/test_product_controller.py:7-107 | through the routes, one product goes: create gives 201; get gives 200 with the same document; a price patch gives 200 with only price and updated_at changed; delete gives 204; get then gives 404. The store ends as it began |

## Left out

- MongoDB and Motor I/O, `async`/`await` and connection handling, and the module-level
  `usecase` singleton. They are replaced by the in-memory store.
- `ProductModel`, the base schemas and the id and timestamp defaults are not part of this
  model. Their id and timestamp assignment is replaced by the `freshId` and `now`
  parameters.
- `ProductUsecase.Create`: requires a `freshId` not already stored. This is the promise of
  the random `uuid4` source. `insert_one` itself checks nothing, and a colliding id would give
  a second document, which a map cannot hold.
- `ProductUsecase.Delete`: always returns true. The `False` branch of `deleted_count > 0`
  needs a concurrent delete between `find_one` and `delete_one`, and concurrency is not
  modelled.
- `ProductUsecase.Update`: does not model that the caller's payload object is itself changed
  when `updated_at` is filled in.
- `ProductUsecase.CreateThenGet`: the equality of the created and the fetched document,
  timestamps included, relies on the timestamp abstraction below. In the code, create returns
  the in-memory document and get returns the stored one, whose dates BSON truncates to
  milliseconds, so the two can differ in their sub-millisecond digits.
- `ProductController.Lifecycle`: "get gives 200 with the same document" relies on the same
  abstraction. Through the real store, the fetched timestamps can differ from the created
  ones below a millisecond.
- Timestamps are integers on the injected clock. Time zones, and the truncation of BSON dates
  to milliseconds, are not modelled.
- `ProductController.HandleCreate`: quantity is an unbounded integer. BSON stores an `int`
  as at most a signed 64-bit integer, so the driver raises `OverflowError` for a larger
  quantity in `insert_one` (store/usecases/product_usercase.py:23) and in the `$set` of an
  update (store/usecases/product_usercase.py:54-58). That error is not caught and becomes a
  500. `ProductUsecase.Create`, `ProductUsecase.Update` and `ProductController.HandlePatch`
  do not model this limit either.
- BSON `Decimal128` is treated as the identity on decimal values. Its 34-digit limit and its
  wire encoding are not modelled.
- `Decimals.Format`: always prints plain notation. Python's `str(Decimal)` switches to
  exponent notation for a positive exponent or very small values. This matters only for the
  text form; the conversion's round trip is unaffected.
- `Decimals.Parse`: accepts an optional sign, then ASCII digits with at most one point.
  Python's `Decimal(str)` also accepts any other Unicode decimal digit (Arabic-Indic,
  fullwidth, …), so `Decimal("１２")` is 12; the model rejects those texts. Exponent
  notation, surrounding whitespace, underscores, `NaN` and `Infinity` are not modelled.
- `ProductSchema.ValidateProductIn`: accepts name only as a `str`, quantity only as an `int`,
  status only as a `bool`, and price as a decimal text, an `int` or a `Decimal`. Pydantic's
  other lax coercions are not modelled. The model rejects every non-`int` quantity with
  `int_type` and every non-`bool` status with `bool_type`. Pydantic instead accepts numeric
  strings for an int and `0`, `1` or `"true"` for a bool, and reports `int_parsing` or
  `bool_parsing` for any other string. A field value has no float case, so a float price such
  as the schema test's `8.5` cannot be given at all; `MissingStatus` uses a `Decimal` price.
- `ProductSchema.RenderErrors`: renders each error's `type`, `loc` and `msg`. The `input` and
  `url` entries of pydantic's error dicts are left out.
- FastAPI request validation: a malformed body or query parameter (422), and a path id that
  is not a UUID4, are not modelled. Route inputs arrive already typed.
- `store/routers.py` only mounts the router under `/products` and is not part of this model.

=== FILE: decimals.dfy ===
/** Exact decimal prices, as Python's `decimal.Decimal` holds them.

    A decimal is a sign, an unbounded coefficient and a count of fractional
    digits, so `8500.00` is `Decimal(false, 850000, 2)`. The scale is kept:
    `7.500` and `7.5` print differently and compare equal. `Format` is the
    plain-notation rendering of `str(Decimal)`, `Parse` the part of
    `Decimal(str)` that reads such text back. */
module Decimals {
  import opened Options
  import opened Powers

  datatype Decimal = Decimal(negative: bool, coefficient: nat, scale: nat)

  /** The exact rational number `d` denotes. */
  function Value(d: Decimal): real {
    var magnitude := d.coefficient as real / Pow(10, d.scale) as real;
    if d.negative then -magnitude else magnitude
  }

  /** Numeric order, which is how the document store compares decimal fields. */
  predicate Less(a: Decimal, b: Decimal) {
    Value(a) < Value(b)
  }

  // ---------------------------------------------------------------------------
  // Digit strings
  // ---------------------------------------------------------------------------

  /** An ASCII decimal digit; other Unicode digits are not modelled. */
  predicate IsDigit(c: char) {
    '0' <= c <= '9'
  }

  predicate AllDigits(s: string) {
    forall i :: 0 <= i < |s| ==> IsDigit(s[i])
  }

  function DigitChar(d: nat): (c: char)
    requires d < 10
    ensures IsDigit(c)
  {
    ('0' as int + d) as char
  }

  /** The number a string of decimal digits spells, most significant first. */
  function DigitsValue(s: string): nat
    requires AllDigits(s)
    decreases |s|
  {
    if s == [] then 0
    else 10 * DigitsValue(s[..|s| - 1]) + (s[|s| - 1] as int - '0' as int)
  }

  /** The decimal digits of `n` without leading zeros ("0" for zero). */
  function NatDigits(n: nat): (s: string)
    ensures |s| >= 1
    ensures AllDigits(s)
    decreases n
  {
    if n < 10 then [DigitChar(n)] else NatDigits(n / 10) + [DigitChar(n % 10)]
  }

  function Zeros(k: nat): (s: string)
    ensures |s| == k
    ensures AllDigits(s)
  {
    seq(k, _ => '0')
  }

  lemma {:induction false} NatDigitsValue(n: nat)
    ensures DigitsValue(NatDigits(n)) == n
    decreases n
  {
    var s := NatDigits(n);
    if n >= 10 {
      assert s[..|s| - 1] == NatDigits(n / 10);
      NatDigitsValue(n / 10);
    }
  }

  /** `NatDigits` has no leading zero: its first digit is `0` only for zero itself. */
  lemma {:induction false} NatDigitsLeading(n: nat)
    ensures NatDigits(n)[0] == '0' <==> n == 0
    decreases n
  {
    if n >= 10 {
      assert NatDigits(n)[0] == NatDigits(n / 10)[0];
      NatDigitsLeading(n / 10);
    }
  }

  lemma AllDigitsConcat(a: string, b: string)
    requires AllDigits(a) && AllDigits(b)
    ensures AllDigits(a + b)
  {
    assert forall i :: 0 <= i < |a + b| ==> (a + b)[i] == (if i < |a| then a[i] else b[i - |a|]);
  }

  lemma {:induction false} DigitsValueConcat(a: string, b: string)
    requires AllDigits(a) && AllDigits(b)
    ensures AllDigits(a + b)
    ensures DigitsValue(a + b) == DigitsValue(a) * Pow(10, |b|) + DigitsValue(b)
    decreases |b|
  {
    AllDigitsConcat(a, b);
    if b == [] {
      assert a + b == a;
    } else {
      var b' := b[..|b| - 1];
      var last := b[|b| - 1] as int - '0' as int;
      assert (a + b)[..|a + b| - 1] == a + b';
      DigitsValueConcat(a, b');
      assert DigitsValue(a + b) == 10 * DigitsValue(a + b') + last;
      assert DigitsValue(b) == 10 * DigitsValue(b') + last;
      ShiftDigit(DigitsValue(a), Pow(10, |b'|), DigitsValue(b'), last);
    }
  }

  lemma ShiftDigit(x: nat, p: nat, y: nat, d: int)
    ensures 10 * (x * p + y) + d == x * (10 * p) + (10 * y + d)
  {
  }

  lemma {:induction false} ZerosValue(k: nat)
    ensures DigitsValue(Zeros(k)) == 0
  {
    if k > 0 {
      assert Zeros(k)[..k - 1] == Zeros(k - 1);
      ZerosValue(k - 1);
    }
  }

  /** Position of the first `c` in `s`, or `|s|` when there is none. */
  function IndexOf(s: string, c: char): (k: nat)
    ensures k <= |s|
    ensures forall i :: 0 <= i < k ==> s[i] != c
    ensures k < |s| ==> s[k] == c
    decreases |s|
  {
    if s == [] then 0 else if s[0] == c then 0 else 1 + IndexOf(s[1..], c)
  }

  // ---------------------------------------------------------------------------
  // Text form
  // ---------------------------------------------------------------------------

  /** The digits of `coefficient`, zero-padded on the left to more than `scale` digits. */
  function Padded(coefficient: nat, scale: nat): (s: string)
    ensures |s| > scale
  {
    var digits := NatDigits(coefficient);
    if |digits| > scale then digits else Zeros(scale + 1 - |digits|) + digits
  }

  /** The unsigned text of `coefficient` scaled down by `scale` digits: the
      point goes `scale` digits from the right, with one zero before it at least. */
  function Magnitude(coefficient: nat, scale: nat): (m: string)
    ensures |m| > scale && IsDigit(m[0])
    ensures scale > 0 ==> m[|m| - scale - 1] == '.'
    ensures forall i :: 0 <= i < |m| ==> IsDigit(m[i]) || (scale > 0 && i == |m| - scale - 1)
    ensures m[0] == '0' ==> |m| == (if scale > 0 then scale + 2 else 1)
  {
    var padded := Padded(coefficient, scale);
    PaddedValue(coefficient, scale);
    NatDigitsLeading(coefficient);
    if scale == 0 then padded
    else
      var k := |padded| - scale;
      SliceDigits(padded, k);
      padded[..k] + "." + padded[k..]
  }

  /** `r` is laid out as the plain text of `d`: a `-` first exactly when `d` is
      negative, the point exactly `scale` places from the end when the scale is
      positive, and digits everywhere else; the integer digits between sign and
      point are never empty and start with `0` only when they are just `0`. */
  predicate PlainLayout(r: string, d: Decimal) {
    var start := if d.negative then 1 else 0;
    && |r| > start + d.scale
    && (r[0] == '-' <==> d.negative)
    && IsDigit(r[start])
    && (r[start] == '0' ==> |r| == start + (if d.scale > 0 then d.scale + 2 else 1))
    && (d.scale > 0 ==> r[|r| - d.scale - 1] == '.')
    && forall i :: 0 <= i < |r| ==>
         IsDigit(r[i]) || (i == 0 && d.negative) || (d.scale > 0 && i == |r| - d.scale - 1)
  }

  /** `str(d)` in plain notation: sign, integer digits, and exactly `scale` fraction digits. */
  function Format(d: Decimal): (r: string)
    ensures PlainLayout(r, d)
  {
    var m := Magnitude(d.coefficient, d.scale);
    if d.negative then
      var r := "-" + m;
      assert forall i :: 1 <= i < |r| ==> r[i] == m[i - 1];
      r
    else m
  }

  /** The digit runs before and after the first `.` of `u` (the second is empty without one). */
  function Split(u: string): (string, string) {
    var k := IndexOf(u, '.');
    (u[..k], if k < |u| then u[k + 1..] else "")
  }

  predicate DigitsOrPoints(u: string) {
    forall i :: 0 <= i < |u| ==> IsDigit(u[i]) || u[i] == '.'
  }

  /** No two points in `u`. */
  predicate AtMostOnePoint(u: string) {
    forall i, j :: 0 <= i < j < |u| && u[i] == '.' ==> u[j] != '.'
  }

  /** Unsigned decimal text: digits with at most one point, and at least one digit. */
  predicate UnsignedText(u: string) {
    |u| > 0 && u != "." && DigitsOrPoints(u) && AtMostOnePoint(u)
  }

  /** The plain text `Decimal(str)` accepts: an optional sign, then unsigned decimal text. */
  predicate DecimalText(s: string) {
    if |s| > 0 && (s[0] == '-' || s[0] == '+') then UnsignedText(s[1..]) else UnsignedText(s)
  }

  /** Reads unsigned `digits [. digits]` (either run may be empty, not both). */
  function ParseUnsigned(u: string): (r: Option<Decimal>)
    ensures r.Some? <==> UnsignedText(u)
    ensures r.Some? ==> !r.value.negative
  {
    var (whole, fraction) := Split(u);
    SplitAccepts(u);
    if AllDigits(whole + fraction) && |whole| + |fraction| > 0 then
      Some(Decimal(false, DigitsValue(whole + fraction), |fraction|))
    else
      None
  }

  /** Reads `[+|-] digits [. digits]`: exactly the decimal texts parse.
      Anything else, such as `"incorrect value"`, `"1.2.3"`, `"+"` or `"."`, does not. */
  function Parse(s: string): (r: Option<Decimal>)
    ensures r.Some? <==> DecimalText(s)
    ensures r.Some? ==> (r.value.negative <==> s[0] == '-')
  {
    if |s| > 0 && (s[0] == '-' || s[0] == '+') then
      match ParseUnsigned(s[1..])
      case None => None
      case Some(d) => Some(d.(negative := s[0] == '-'))
    else
      ParseUnsigned(s)
  }

  /** The split of `u` at its first point is two digit runs, not both empty,
      exactly when `u` is unsigned decimal text. */
  lemma SplitAccepts(u: string)
    ensures (AllDigits(Split(u).0 + Split(u).1) && |Split(u).0| + |Split(u).1| > 0) <==> UnsignedText(u)
  {
    var k := IndexOf(u, '.');
    if k == |u| {
      assert Split(u) == (u, "") by {
        assert u[..k] == u;
      }
      assert u + "" == u;
      NoPointText(u);
    } else {
      var w, f := u[..k], u[k + 1..];
      assert Split(u) == (w, f);
      assert u == w + "." + f;
      if AllDigits(w + f) && |w| + |f| > 0 {
        PointTextAccepted(w, f);
      }
      if UnsignedText(u) {
        PointTextDigits(w, f);
      }
    }
  }

  /** Without a point, unsigned text is a non-empty digit run. */
  lemma NoPointText(u: string)
    requires forall i :: 0 <= i < |u| ==> u[i] != '.'
    ensures (AllDigits(u) && |u| > 0) <==> UnsignedText(u)
  {
    assert |u| > 0 ==> u[0] != '.';
  }

  /** Two digit runs around one point, not both empty, are unsigned text. */
  lemma PointTextAccepted(w: string, f: string)
    requires forall i :: 0 <= i < |w| ==> w[i] != '.'
    requires AllDigits(w + f) && |w| + |f| > 0
    ensures UnsignedText(w + "." + f)
  {
    var u := w + "." + f;
    assert forall i :: 0 <= i < |w| ==> u[i] == (w + f)[i];
    assert forall i :: 0 <= i < |f| ==> u[|w| + 1 + i] == f[i] == (w + f)[|w| + i];
    assert forall i :: 0 <= i < |u| && i != |w| ==> IsDigit(u[i]) by {
      forall i | 0 <= i < |u| && i != |w|
        ensures IsDigit(u[i])
      {
        if i > |w| {
          assert u[i] == (w + f)[i - 1];
        }
      }
    }
    assert |u| >= 2;
  }

  /** Unsigned text with its first point after `w` has digit runs on both sides, not both empty. */
  lemma PointTextDigits(w: string, f: string)
    requires forall i :: 0 <= i < |w| ==> w[i] != '.'
    requires UnsignedText(w + "." + f)
    ensures AllDigits(w + f) && |w| + |f| > 0
  {
    var u := w + "." + f;
    assert forall i :: 0 <= i < |w| ==> u[i] == w[i];
    assert forall i :: 0 <= i < |f| ==> u[|w| + 1 + i] == f[i];
    assert u[|w|] == '.';
    assert AllDigits(w);
    assert AllDigits(f) by {
      forall i | 0 <= i < |f|
        ensures IsDigit(f[i])
      {
        assert u[|w| + 1 + i] != '.';
      }
    }
    AllDigitsConcat(w, f);
    assert |w| + |f| == 0 ==> u == ".";
  }

  lemma IndexOfFirst(s: string, c: char, k: nat)
    requires k <= |s|
    requires forall i :: 0 <= i < k ==> s[i] != c
    requires k < |s| ==> s[k] == c
    ensures IndexOf(s, c) == k
  {
  }

  /** Text with a point reads as the digits on both sides, scaled by the right-hand run. */
  lemma ParseAtPoint(w: string, f: string)
    requires AllDigits(w) && AllDigits(f) && |w| + |f| > 0
    ensures AllDigits(w + f)
    ensures ParseUnsigned(w + "." + f) == Some(Decimal(false, DigitsValue(w + f), |f|))
  {
    AllDigitsConcat(w, f);
    var u := w + "." + f;
    IndexOfFirst(u, '.', |w|);
    assert u[..|w|] == w;
    assert u[|w| + 1..] == f;
  }

  lemma ParseNoPoint(w: string)
    requires AllDigits(w) && |w| > 0
    ensures ParseUnsigned(w) == Some(Decimal(false, DigitsValue(w), 0))
  {
    assert w + "" == w;
    IndexOfFirst(w, '.', |w|);
    assert w[..|w|] == w;
  }

  /** A text without a leading sign is read as unsigned text. */
  lemma ParseUnsignedText(u: string)
    requires |u| == 0 || (u[0] != '-' && u[0] != '+')
    ensures Parse(u) == ParseUnsigned(u)
  {
  }

  /** A leading sign is read off before the unsigned text. */
  lemma ParseSignedText(c: char, u: string)
    requires c == '-' || c == '+'
    requires ParseUnsigned(u).Some?
    ensures Parse([c] + u) == Some(ParseUnsigned(u).value.(negative := c == '-'))
  {
    assert ([c] + u)[1..] == u;
  }

  /** What any text with a point denotes, leading zeros and a `+` included: the
      digits on both sides as one coefficient, scaled by the digits after the point. */
  lemma PointTextValue(w: string, f: string)
    requires AllDigits(w) && AllDigits(f) && |w| + |f| > 0
    ensures Parse(w + "." + f) == Some(Decimal(false, DigitsValue(w + f), |f|))
    ensures Parse("+" + (w + "." + f)) == Some(Decimal(false, DigitsValue(w + f), |f|))
    ensures Parse("-" + (w + "." + f)) == Some(Decimal(true, DigitsValue(w + f), |f|))
  {
    var u := w + "." + f;
    ParseAtPoint(w, f);
    assert u[0] == if |w| > 0 then w[0] else '.';
    ParseUnsignedText(u);
    ParseSignedText('+', u);
    ParseSignedText('-', u);
  }

  /** What any text without a point denotes: its digits, at scale 0. */
  lemma WholeTextValue(w: string)
    requires AllDigits(w) && |w| > 0
    ensures Parse(w) == Some(Decimal(false, DigitsValue(w), 0))
    ensures Parse("+" + w) == Some(Decimal(false, DigitsValue(w), 0))
    ensures Parse("-" + w) == Some(Decimal(true, DigitsValue(w), 0))
  {
    ParseNoPoint(w);
    ParseUnsignedText(w);
    ParseSignedText('+', w);
    ParseSignedText('-', w);
  }

  /** A `+` sign adds nothing: a text reads the same with or without it. */
  lemma PlusSignText(u: string)
    requires |u| == 0 || (u[0] != '-' && u[0] != '+')
    ensures Parse("+" + u) == Parse(u)
  {
    assert ("+" + u)[1..] == u;
    ParseUnsignedText(u);
  }

  /** A leading zero adds nothing: `07.5` reads as `7.5`, and `0.5` as `.5`. */
  lemma LeadingZeroText(u: string)
    requires UnsignedText(u)
    ensures Parse("0" + u) == Parse(u)
  {
    var (w, f) := Split(u);
    SplitAccepts(u);
    SplitLeadingZero(u);
    ZeroDigitValue(w + f);
    assert "0" + w + f == "0" + (w + f);
    assert ParseUnsigned("0" + u) == ParseUnsigned(u);
    ParseUnsignedText(u);
    ParseUnsignedText("0" + u);
  }

  /** A leading `0` digit leaves a digit string's value unchanged. */
  lemma ZeroDigitValue(x: string)
    requires AllDigits(x)
    ensures AllDigits("0" + x) && DigitsValue("0" + x) == DigitsValue(x)
  {
    assert AllDigits("0") && DigitsValue("0") == 0 by {
      assert "0"[..0] == "";
    }
    DigitsValueConcat("0", x);
  }

  /** A leading `0` joins the integer part and leaves the fraction alone. */
  lemma SplitLeadingZero(u: string)
    ensures Split("0" + u) == ("0" + Split(u).0, Split(u).1)
  {
    var z := "0" + u;
    var k := IndexOf(u, '.');
    assert forall i :: 1 <= i < |z| ==> z[i] == u[i - 1];
    IndexOfFirst(z, '.', k + 1);
    assert z[..k + 1] == "0" + u[..k];
  }

  lemma PaddedValue(coefficient: nat, scale: nat)
    ensures AllDigits(Padded(coefficient, scale))
    ensures DigitsValue(Padded(coefficient, scale)) == coefficient
  {
    var digits := NatDigits(coefficient);
    NatDigitsValue(coefficient);
    if |digits| <= scale {
      ZerosPrefixValue(scale + 1 - |digits|, digits);
    }
  }

  /** Leading zeros leave a digit string's value unchanged. */
  lemma ZerosPrefixValue(k: nat, digits: string)
    requires AllDigits(digits)
    ensures AllDigits(Zeros(k) + digits)
    ensures DigitsValue(Zeros(k) + digits) == DigitsValue(digits)
  {
    DigitsValueConcat(Zeros(k), digits);
    ZerosValue(k);
    assert DigitsValue(Zeros(k)) * Pow(10, |digits|) == 0;
  }


  /** `Magnitude` reads back as the coefficient and scale it was printed from. */
  lemma MagnitudeParses(coefficient: nat, scale: nat)
    ensures ParseUnsigned(Magnitude(coefficient, scale)) == Some(Decimal(false, coefficient, scale))
  {
    if scale == 0 {
      MagnitudeWhole(coefficient);
    } else {
      MagnitudeFraction(coefficient, scale);
    }
  }

  lemma MagnitudeWhole(coefficient: nat)
    ensures ParseUnsigned(Magnitude(coefficient, 0)) == Some(Decimal(false, coefficient, 0))
  {
    PaddedValue(coefficient, 0);
    ParseNoPoint(Padded(coefficient, 0));
  }

  lemma MagnitudeFraction(coefficient: nat, scale: nat)
    requires scale > 0
    ensures ParseUnsigned(Magnitude(coefficient, scale)) == Some(Decimal(false, coefficient, scale))
  {
    var padded := Padded(coefficient, scale);
    PaddedValue(coefficient, scale);
    assert Magnitude(coefficient, scale) == padded[..|padded| - scale] + "." + padded[|padded| - scale..];
    PointParses(padded, scale);
  }

  lemma PointParses(digits: string, scale: nat)
    requires AllDigits(digits) && 0 < scale < |digits|
    ensures ParseUnsigned(digits[..|digits| - scale] + "." + digits[|digits| - scale..])
            == Some(Decimal(false, DigitsValue(digits), scale))
  {
    var k := |digits| - scale;
    SliceDigits(digits, k);
    ParseAtPoint(digits[..k], digits[k..]);
  }

  lemma SliceDigits(digits: string, k: nat)
    requires AllDigits(digits) && k <= |digits|
    ensures AllDigits(digits[..k]) && AllDigits(digits[k..])
    ensures digits[..k] + digits[k..] == digits
  {
    assert forall i :: 0 <= i < k ==> digits[..k][i] == digits[i];
    assert forall i :: 0 <= i < |digits| - k ==> digits[k..][i] == digits[k + i];
  }

  /** Printing a decimal and reading the text back loses nothing: sign,
      coefficient and scale all survive. */
  lemma {:induction false} ParseFormat(d: Decimal)
    ensures Parse(Format(d)) == Some(d)
  {
    var m := Magnitude(d.coefficient, d.scale);
    MagnitudeParses(d.coefficient, d.scale);
    if d.negative {
      SignedParses(m, d);
    } else {
      assert Format(d) == m;
    }
  }

  lemma SignedParses(m: string, d: Decimal)
    requires d.negative && m == Magnitude(d.coefficient, d.scale)
    requires |m| > 0 && IsDigit(m[0])
    requires ParseUnsigned(m) == Some(Decimal(false, d.coefficient, d.scale))
    ensures Parse(Format(d)) == Some(d)
  {
    var s := Format(d);
    assert s == "-" + m;
    assert s[1..] == m;
  }

  lemma FormatInjective(a: Decimal, b: Decimal)
    requires Format(a) == Format(b)
    ensures a == b
  {
    ParseFormat(a);
    ParseFormat(b);
  }

  /** The `convert_decimal_128` validator: `Decimal128(str(d))`. The BSON
      encoding itself is treated as the identity on decimal values. */
  function ToDecimal128(d: Decimal): (r: Decimal)
    ensures r == d
  {
    ParseFormat(d);
    Parse(Format(d)).value
  }

  /** The list price the tests read back, as `str` prints it; by `ParseFormat`
      the text reads back as the same decimal. */
  lemma ListPrice()
    ensures Format(Decimal(false, 850000, 2)) == "8500.00"
  {
    var digits := NatDigits(850000);
    ListDigits();
    assert Padded(850000, 2) == digits;
    assert digits[..4] == "8500";
    assert digits[4..] == "00";
    assert Magnitude(850000, 2) == "8500" + "." + "00";
  }

  lemma ListDigits()
    ensures NatDigits(850000) == "850000"
  {
    assert NatDigits(85) == "85";
    assert NatDigits(850) == "850";
    assert NatDigits(8500) == "8500";
    assert NatDigits(85000) == "85000";
  }

  /** The patched price the tests send and read back. */
  lemma PatchPrice()
    ensures Format(Decimal(false, 7500, 3)) == "7.500"
  {
    var digits := NatDigits(7500);
    assert NatDigits(75) == "75";
    assert digits == NatDigits(750) + "0" == "7500";
    assert Padded(7500, 3) == digits;
    assert digits[..1] == "7";
    assert digits[1..] == "500";
    assert Magnitude(7500, 3) == "7" + "." + "500";
  }

  /** The price text the tests use to provoke a validation error is not a decimal. */
  lemma NotAPrice()
    ensures Parse("incorrect value") == None
  {
    var t := "incorrect value";
    assert !IsDigit(t[0]) && t[0] != '.' && t[0] != '-' && t[0] != '+';
    assert !DigitsOrPoints(t);
  }
}

=== FILE: exceptions.dfy ===
/**
 * The application's exceptions as values, and the outcome of a usecase call:
 * either a result or the exception it raised.
 */
module Exceptions {

  /** `BadRequestException` and `NotFoundException`, each with its message;
      `Other` stands for any failure the usecases do not raise themselves
      (a database error, say). */
  datatype Error =
    | BadRequest(message: string)
    | NotFound(message: string)
    | Other(message: string)

  /** A usecase call returns a value or raises. */
  datatype Outcome<+T> = Ok(value: T) | Raise(error: Error)
}

=== FILE: options.dfy ===
/** Optional values and the outcome of a parse or validation step. */
module Options {

  /** A value that may be absent: the model of Python's `X | None`. */
  datatype Option<+T> = None | Some(value: T) {

    /** The carried value, or `default` when absent. */
    function GetOr(default: T): T {
      if Some? then value else default
    }
  }

  /** A parse or validation step either yields a value or reports what went wrong. */
  datatype Result<+T, +E> = Success(value: T) | Failure(error: E)
}

=== FILE: powers.dfy ===
/** Natural powers, shared by the decimal scale and the hexadecimal width of ids. */
module Powers {
  /** `base` raised to `n`; at least 1 for a positive base. */
  function Pow(base: nat, n: nat): (r: nat)
    requires base >= 1
    ensures r >= 1
  {
    if n == 0 then 1 else base * Pow(base, n - 1)
  }
}

=== FILE: product_controller.dfy ===
/**
 * The `/products` routes: each handler calls its usecase and turns the
 * outcome into an HTTP status and body, translating only the exceptions the
 * route catches.
 */
module ProductController {
  import opened Options
  import opened Decimals
  import opened Exceptions
  import opened ProductSchema
  import opened ProductUsecase

  datatype Route = CreateRoute | GetRoute | QueryRoute | FilterPriceRoute | PatchRoute | DeleteRoute

  /** A response body: nothing, an `HTTPException` detail, one product or a list. */
  datatype Body = NoBody | Detail(message: string) | One(product: Product) | Many(products: seq<Product>)

  datatype Response = Response(status: int, body: Body)

  /** A route either answers, or lets an exception it does not catch propagate. */
  datatype Reply = Returned(response: Response) | Propagated(error: Error)

  const StatusOk := 200
  const StatusCreated := 201
  const StatusNoContent := 204
  const StatusBadRequest := 400
  const StatusNotFound := 404

  /** The `status_code` each route declares for success. */
  function SuccessStatus(route: Route): (code: int)
    ensures 200 <= code < 300
    ensures code == StatusCreated <==> route == CreateRoute
    ensures code == StatusNoContent <==> route == DeleteRoute
    ensures route != CreateRoute && route != DeleteRoute ==> code == StatusOk
  {
    match route
    case CreateRoute => StatusCreated
    case DeleteRoute => StatusNoContent
    case _ => StatusOk
  }

  /** The status a route's `except` clause maps an exception to, if it catches it. */
  function Translation(route: Route, e: Error): Option<int> {
    match e
    case BadRequest(_) => if route == CreateRoute then Some(StatusBadRequest) else None
    case NotFound(_) =>
      if route == GetRoute || route == PatchRoute || route == DeleteRoute then Some(StatusNotFound) else None
    case Other(_) => None
  }

  /** A route's answer to its usecase's outcome. */
  function Respond(route: Route, o: Outcome<Body>): (r: Reply)
    ensures o.Ok? ==> r == Returned(Response(SuccessStatus(route), if route == DeleteRoute then NoBody else o.value))
    ensures o.Raise? && r.Returned? ==> r.response.body == Detail(o.error.message)
    ensures o.Raise? ==>
              (r.Returned? && r.response.status == StatusBadRequest <==> route == CreateRoute && o.error.BadRequest?)
    ensures o.Raise? ==>
              (r.Returned? && r.response.status == StatusNotFound <==>
                 (route == GetRoute || route == PatchRoute || route == DeleteRoute) && o.error.NotFound?)
    ensures o.Raise? ==> (r.Propagated? <==> !(r.Returned? && r.response.status in {StatusBadRequest, StatusNotFound}))
    ensures r.Propagated? ==> o.Raise? && r.error == o.error
  {
    match o
    case Ok(b) => Returned(Response(SuccessStatus(route), if route == DeleteRoute then NoBody else b))
    case Raise(e) =>
      match Translation(route, e)
      case Some(code) => Returned(Response(code, Detail(e.message)))
      case None => Propagated(e)
  }

  /** A usecase's product outcome as a body outcome. */
  function AsBody(o: Outcome<Product>): Outcome<Body> {
    match o
    case Ok(p) => Ok(One(p))
    case Raise(e) => Raise(e)
  }

  /** The store after a request, and the reply. */
  datatype Exchange = Exchange(next: Store, reply: Reply)

  /** `POST /products/`: the body is already a `ProductIn`, so the usecase's
      re-validation always succeeds and the route answers 201 with the new document. */
  function HandleCreate(s: Store, body: ProductIn, freshId: Uuid, now: Timestamp): (x: Exchange)
    requires freshId !in s.records
    ensures x.reply.Returned? && x.reply.response.status == StatusCreated && x.reply.response.body.One?
    ensures var p := x.reply.response.body.product;
            InputOf(p) == body && p.id == freshId && p.createdAt == now && p.updatedAt == now
            && x.next.records == s.records[freshId := p] && x.next.order == s.order + [freshId]
  {
    ValidateDump(body);
    var t := Create(s, Dump(body), freshId, now);
    Exchange(t.next, Respond(CreateRoute, AsBody(t.outcome)))
  }

  /** `GET /products/{id}`: 200 with the document, or 404 with the not-found message. */
  function HandleGet(s: Store, id: Uuid): (x: Exchange)
    ensures x.next == s
    ensures id in s.records ==> x.reply == Returned(Response(StatusOk, One(s.records[id])))
    ensures id !in s.records ==> x.reply == Returned(Response(StatusNotFound, Detail(NotFoundMessage(id))))
  {
    Exchange(s, Respond(GetRoute, AsBody(Get(s, id))))
  }

  /** `GET /products/`: always 200 with every document. */
  function HandleQuery(s: Store): (x: Exchange)
    requires Valid(s)
    ensures x.next == s
    ensures x.reply.Returned? && x.reply.response.status == StatusOk && x.reply.response.body.Many?
    ensures |x.reply.response.body.products| == |s.records|
    ensures forall k :: k in s.records ==> s.records[k] in x.reply.response.body.products
  {
    Exchange(s, Respond(QueryRoute, Ok(Many(Query(s)))))
  }

  /** The query-parameter defaults `Decimal("4.500")` and `Decimal("8.000")`. */
  const DefaultMinPrice := Decimal(false, 4500, 3)
  const DefaultMaxPrice := Decimal(false, 8000, 3)

  /** The defaults are the decimals the source's literals denote. */
  lemma DefaultTexts()
    ensures Parse("4.500") == Some(DefaultMinPrice)
    ensures Parse("8.000") == Some(DefaultMaxPrice)
  {
    MinText();
    MaxText();
    ParseFormat(DefaultMinPrice);
    ParseFormat(DefaultMaxPrice);
  }

  lemma MinText()
    ensures Format(DefaultMinPrice) == "4.500"
  {
    var digits := NatDigits(4500);
    assert NatDigits(45) == "45";
    assert digits == NatDigits(450) + "0" == "4500";
    assert Padded(4500, 3) == digits;
    assert digits[..1] == "4";
    assert digits[1..] == "500";
    assert Magnitude(4500, 3) == "4" + "." + "500";
  }

  lemma MaxText()
    ensures Format(DefaultMaxPrice) == "8.000"
  {
    var digits := NatDigits(8000);
    assert NatDigits(80) == "80";
    assert digits == NatDigits(800) + "0" == "8000";
    assert Padded(8000, 3) == digits;
    assert digits[..1] == "8";
    assert digits[1..] == "000";
    assert Magnitude(8000, 3) == "8" + "." + "000";
  }

  /** `GET /products/filter-price/`: a missing bound takes its default, so the
      usecase always gets both; 200 with the documents strictly inside them.
      The route catches nothing. */
  function HandleFilterPrice(s: Store, minPrice: Option<Decimal>, maxPrice: Option<Decimal>): (x: Exchange)
    requires Valid(s)
    ensures x.next == s
    ensures x.reply.Returned? && x.reply.response.status == StatusOk && x.reply.response.body.Many?
    ensures forall p :: p in x.reply.response.body.products <==>
              p.id in s.records && s.records[p.id] == p
              && InRange(p, minPrice.GetOr(DefaultMinPrice), maxPrice.GetOr(DefaultMaxPrice))
  {
    var filter := NewFilter(Some(minPrice.GetOr(DefaultMinPrice)), Some(maxPrice.GetOr(DefaultMaxPrice)));
    Exchange(s, Respond(FilterPriceRoute, Ok(Many(GetByPrice(s, filter)))))
  }

  /** `PATCH /products/{id}`: 200 with the updated document, or 404 with the
      not-found message and the store unchanged. */
  function HandlePatch(s: Store, id: Uuid, u: ProductUpdate, now: Timestamp): (x: Exchange)
    ensures id in s.records ==>
              && x.reply.Returned? && x.reply.response.status == StatusOk && x.reply.response.body.One?
              && x.next.records == s.records[id := x.reply.response.body.product]
              && x.next.order == s.order
              && Carries(u, x.reply.response.body.product)
              && x.reply.response.body.product.updatedAt == u.updatedAt.GetOr(now)
              && forall f :: f != UpdatedAt && !Sets(u, f) ==> Agree(f, s.records[id], x.reply.response.body.product)
    ensures id !in s.records ==>
              x.next == s && x.reply == Returned(Response(StatusNotFound, Detail(NotFoundMessage(id))))
  {
    var t := Update(s, id, u, now);
    Exchange(t.next, Respond(PatchRoute, AsBody(t.outcome)))
  }

  /** `DELETE /products/{id}`: 204 with no body, or 404 with the not-found
      message and the store unchanged. */
  function HandleDelete(s: Store, id: Uuid): (x: Exchange)
    ensures id in s.records ==>
              x.reply == Returned(Response(StatusNoContent, NoBody)) && x.next.records == s.records - {id}
    ensures id !in s.records ==>
              x.next == s && x.reply == Returned(Response(StatusNotFound, Detail(NotFoundMessage(id))))
  {
    var t := Delete(s, id);
    var o: Outcome<Body> := if t.outcome.Ok? then Ok(NoBody) else Raise(t.outcome.error);
    Exchange(t.next, Respond(DeleteRoute, o))
  }

  /** A product's life through the routes: created (201), read back (200),
      re-priced (200), deleted (204), then gone (404); the store ends as it began. */
  lemma Lifecycle(s: Store, body: ProductIn, id: Uuid, created: Timestamp, price: Decimal, patched: Timestamp)
    requires Valid(s) && id !in s.records
    ensures var c := HandleCreate(s, body, id, created);
            var p := c.reply.response.body.product;
            var g := HandleGet(c.next, id);
            var u := HandlePatch(g.next, id, NewUpdate(None, Some(price), None, None), patched);
            var d := HandleDelete(u.next, id);
            var h := HandleGet(d.next, id);
            && c.reply.response.status == StatusCreated
            && g.reply == Returned(Response(StatusOk, One(p)))
            && u.reply.response.status == StatusOk
            && u.reply.response.body.product == p.(price := price, updatedAt := patched)
            && d.reply == Returned(Response(StatusNoContent, NoBody))
            && h.reply == Returned(Response(StatusNotFound, Detail(NotFoundMessage(id))))
            && h.next == s
  {
    var c := HandleCreate(s, body, id, created);
    var p := c.reply.response.body.product;
    PatchPriceStep(c.next, id, p, price, patched);
    var u := HandlePatch(c.next, id, NewUpdate(None, Some(price), None, None), patched);
    RemoveReplaced(s.records, id, p, p.(price := price, updatedAt := patched));
    DeleteRestores(s, u.next, id);
  }

  /** Adding a key, replacing its value, then removing it gives the map back. */
  lemma RemoveReplaced(m: map<Uuid, Product>, id: Uuid, p: Product, q: Product)
    requires id !in m
    ensures m[id := p][id := q] - {id} == m
  {
  }

  /** Re-pricing a stored document changes its price and update time and nothing else. */
  lemma PatchPriceStep(t: Store, id: Uuid, p: Product, price: Decimal, patched: Timestamp)
    requires id in t.records && t.records[id] == p
    ensures var u := HandlePatch(t, id, NewUpdate(None, Some(price), None, None), patched);
            && u.reply.Returned? && u.reply.response.status == StatusOk && u.reply.response.body.One?
            && u.reply.response.body.product == p.(price := price, updatedAt := patched)
            && u.next.records == t.records[id := p.(price := price, updatedAt := patched)]
            && u.next.order == t.order
  {
    var u := HandlePatch(t, id, NewUpdate(None, Some(price), None, None), patched);
    var r := u.reply.response.body.product;
    assert Agree(Id, p, r) && Agree(Name, p, r) && Agree(Quantity, p, r);
    assert Agree(Status, p, r) && Agree(CreatedAt, p, r);
  }

  /** Deleting the one document added to a store gives that store back, after
      which the id is not found. */
  lemma DeleteRestores(s: Store, t: Store, id: Uuid)
    requires Valid(s) && id !in s.records
    requires id in t.records && t.records - {id} == s.records && t.order == s.order + [id]
    ensures HandleDelete(t, id) == Exchange(s, Returned(Response(StatusNoContent, NoBody)))
  {
    OrderRestored(s.order, id);
  }
}

=== FILE: product_schema.dfy ===
/**
 * The product schemas: the create payload and its validation, the stored
 * and returned record, the partial-update payload and the price filter.
 */
module ProductSchema {
  import opened Options
  import opened Decimals
  import Uuids

  /** An instant on the injected clock. */
  type Timestamp = int

  /** `ProductIn`: the four fields a create request must supply. */
  datatype ProductIn = ProductIn(name: string, quantity: int, price: Decimal, status: bool)

  /** A stored product document; `ProductOut` and `ProductUpdateOut` carry the
      same fields: the input fields plus the output-schema id and timestamps. */
  datatype Product = Product(
    id: Uuids.Uuid,
    name: string,
    quantity: int,
    price: Decimal,
    status: bool,
    createdAt: Timestamp,
    updatedAt: Timestamp)

  /** The `ProductIn` part of a record. */
  function InputOf(p: Product): ProductIn {
    ProductIn(p.name, p.quantity, p.price, p.status)
  }

  /** The document built from a validated input, a fresh id and the clock's
      reading; both timestamps start at that reading. */
  function NewProduct(input: ProductIn, id: Uuids.Uuid, now: Timestamp): (r: Product)
    ensures InputOf(r) == input
    ensures r.id == id && r.createdAt == now && r.updatedAt == now
  {
    Product(id, input.name, input.quantity, input.price, input.status, now, now)
  }

  /** The fields of a stored record. */
  datatype Field = Id | Name | Quantity | Price | Status | CreatedAt | UpdatedAt

  /** The document key of a field. */
  function Key(f: Field): string {
    match f
    case Id => "id"
    case Name => "name"
    case Quantity => "quantity"
    case Price => "price"
    case Status => "status"
    case CreatedAt => "created_at"
    case UpdatedAt => "updated_at"
  }

  // ---------------------------------------------------------------------
  // Validation of the create payload
  // ---------------------------------------------------------------------

  /** The kinds of Python value a payload field can hold. */
  datatype FieldValue =
    | Str(s: string)
    | Int(i: int)
    | Bool(b: bool)
    | Dec(d: Decimal)
    | Null

  /** The pydantic error types validation can report. */
  datatype ErrorType = Missing | StringType | IntType | BoolType | DecimalParsing | DecimalType

  /** One entry of `ValidationError.errors()`: the field and what was wrong with it. */
  datatype FieldError = FieldError(loc: Field, kind: ErrorType)

  /** The required fields of `ProductIn`, in declaration order. */
  const RequiredFields: seq<Field> := [Name, Quantity, Price, Status]

  function Lookup(obj: map<string, FieldValue>, f: Field): Option<FieldValue> {
    if Key(f) in obj then Some(obj[Key(f)]) else None
  }

  /** The decimal a price value denotes: a text in decimal notation, an int,
      or a `Decimal`; None when it is neither. */
  function PriceOf(v: FieldValue): Option<Decimal> {
    match v
    case Str(t) => Parse(t)
    case Int(i) => Some(Decimal(i < 0, if i < 0 then -i else i, 0))
    case Dec(d) => Some(d)
    case _ => None
  }

  /** What is wrong with the value a required field holds, or None when it is accepted. */
  function Check(f: Field, v: Option<FieldValue>): (e: Option<ErrorType>)
    ensures v.None? && f in RequiredFields ==> e == Some(Missing)
  {
    match v
    case None => if f in RequiredFields then Some(Missing) else None
    case Some(x) =>
      match f
      case Name => if x.Str? then None else Some(StringType)
      case Quantity => if x.Int? then None else Some(IntType)
      case Price => if PriceOf(x).Some? then None else if x.Str? then Some(DecimalParsing) else Some(DecimalType)
      case Status => if x.Bool? then None else Some(BoolType)
      case _ => None
  }

  predicate Rejects(obj: map<string, FieldValue>, f: Field) {
    Check(f, Lookup(obj, f)).Some?
  }

  /** The error for field `f`, if it is rejected. */
  function ErrorAt(obj: map<string, FieldValue>, f: Field): (errs: seq<FieldError>)
    ensures |errs| <= 1
    ensures |errs| == 1 <==> Rejects(obj, f)
    ensures |errs| == 1 ==> errs[0].loc == f && Check(f, Lookup(obj, f)) == Some(errs[0].kind)
  {
    match Check(f, Lookup(obj, f))
    case Some(kind) => [FieldError(f, kind)]
    case None => []
  }

  /** Where a field stands in the declaration order of `ProductIn`; the others come last. */
  function Rank(f: Field): (n: nat)
    ensures f in RequiredFields <==> n < |RequiredFields|
    ensures n < |RequiredFields| ==> RequiredFields[n] == f
  {
    match f
    case Name => 0
    case Quantity => 1
    case Price => 2
    case Status => 3
    case _ => 4
  }

  /** Each field reported at most once, and in declaration order. */
  predicate InFieldOrder(errs: seq<FieldError>) {
    forall i, j :: 0 <= i < j < |errs| ==> Rank(errs[i].loc) < Rank(errs[j].loc)
  }

  /** Every reported field ranks below `n`. */
  predicate RankedBelow(errs: seq<FieldError>, n: nat) {
    forall i :: 0 <= i < |errs| ==> Rank(errs[i].loc) < n
  }

  /** Reporting field `f` after fields that precede it keeps the report in order. */
  lemma AppendInOrder(errs: seq<FieldError>, more: seq<FieldError>, f: Field)
    requires InFieldOrder(errs) && RankedBelow(errs, Rank(f))
    requires |more| <= 1 && (|more| == 1 ==> more[0].loc == f)
    ensures InFieldOrder(errs + more) && RankedBelow(errs + more, Rank(f) + 1)
  {
    var all := errs + more;
    assert forall i :: 0 <= i < |all| ==> all[i] == if i < |errs| then errs[i] else more[0];
  }

  /** At most one entry, and that one about field `f`. */
  predicate AtMostOneFor(errs: seq<FieldError>, f: Field) {
    |errs| <= 1 && (|errs| == 1 ==> errs[0].loc == f)
  }

  /** Reports for the four fields, concatenated in declaration order, are in that order. */
  lemma ErrorsInFieldOrder(a: seq<FieldError>, b: seq<FieldError>, c: seq<FieldError>, d: seq<FieldError>)
    requires AtMostOneFor(a, Name) && AtMostOneFor(b, Quantity)
    requires AtMostOneFor(c, Price) && AtMostOneFor(d, Status)
    ensures InFieldOrder(a + b + c + d)
  {
    AppendInOrder([], a, Name);
    assert [] + a == a;
    AppendInOrder(a, b, Quantity);
    AppendInOrder(a + b, c, Price);
    AppendInOrder(a + b + c, d, Status);
  }

  /** `ProductIn.model_validate(obj)`: keys other than the four fields are
      ignored; every rejected field is reported once, in field order. */
  function ValidateProductIn(obj: map<string, FieldValue>): (r: Result<ProductIn, seq<FieldError>>)
    ensures r.Success? <==> forall f :: f in RequiredFields ==> !Rejects(obj, f)
    ensures r.Success? ==> "name" in obj && "quantity" in obj && "price" in obj && "status" in obj
    ensures r.Success? ==>
              obj["name"] == Str(r.value.name) && obj["quantity"] == Int(r.value.quantity)
              && PriceOf(obj["price"]) == Some(r.value.price) && obj["status"] == Bool(r.value.status)
    ensures r.Failure? ==> 0 < |r.error| <= |RequiredFields|
    ensures r.Failure? ==> forall e :: e in r.error ==>
                             e.loc in RequiredFields && Check(e.loc, Lookup(obj, e.loc)) == Some(e.kind)
    ensures r.Failure? ==> forall f :: f in RequiredFields && Rejects(obj, f) ==>
                             FieldError(f, Check(f, Lookup(obj, f)).value) in r.error
    ensures r.Failure? ==> InFieldOrder(r.error)
  {
    var errs := ErrorAt(obj, Name) + ErrorAt(obj, Quantity) + ErrorAt(obj, Price) + ErrorAt(obj, Status);
    ErrorsInFieldOrder(ErrorAt(obj, Name), ErrorAt(obj, Quantity), ErrorAt(obj, Price), ErrorAt(obj, Status));
    if |errs| == 0 then
      Success(ProductIn(obj["name"].s, obj["quantity"].i, PriceOf(obj["price"]).value, obj["status"].b))
    else
      Failure(errs)
  }

  /** `ProductIn.model_dump()`. */
  function Dump(p: ProductIn): map<string, FieldValue> {
    map["name" := Str(p.name), "quantity" := Int(p.quantity), "price" := Dec(p.price), "status" := Bool(p.status)]
  }

  /** Re-validating a dumped input gives the input back. */
  lemma ValidateDump(p: ProductIn)
    ensures ValidateProductIn(Dump(p)) == Success(p)
  {
    var obj := Dump(p);
    assert forall f :: f in RequiredFields ==> !Rejects(obj, f);
  }

  /** Only the four fields matter: extra keys (an `id`, say) change nothing. */
  lemma ExtraKeysIgnored(obj: map<string, FieldValue>, key: string, v: FieldValue)
    requires forall f :: f in RequiredFields ==> key != Key(f)
    ensures ValidateProductIn(obj[key := v]) == ValidateProductIn(obj)
  {
    var big := obj[key := v];
    assert key != Key(Name) && key != Key(Quantity) && key != Key(Price) && key != Key(Status);
    assert ErrorAt(big, Name) == ErrorAt(obj, Name);
    assert ErrorAt(big, Quantity) == ErrorAt(obj, Quantity);
    assert ErrorAt(big, Price) == ErrorAt(obj, Price);
    assert ErrorAt(big, Status) == ErrorAt(obj, Status);
  }

  /** A payload with valid name, quantity and price but no status is rejected
      with exactly one error: status is missing. */
  lemma MissingStatus(name: string, quantity: int, price: Decimal)
    ensures ValidateProductIn(map["name" := Str(name), "quantity" := Int(quantity), "price" := Dec(price)])
            == Failure([FieldError(Status, Missing)])
  {
    var obj := map["name" := Str(name), "quantity" := Int(quantity), "price" := Dec(price)];
    assert "status" !in obj;
    assert ErrorAt(obj, Name) + ErrorAt(obj, Quantity) + ErrorAt(obj, Price) == [];
    assert ErrorAt(obj, Status) == [FieldError(Status, Missing)];
    var errs := ErrorAt(obj, Name) + ErrorAt(obj, Quantity) + ErrorAt(obj, Price) + ErrorAt(obj, Status);
    assert errs == [FieldError(Status, Missing)];
    assert ValidateProductIn(obj) == Failure(errs);
  }

  /** A price text that is not a decimal is a `decimal_parsing` error on `price`,
      and the only error. */
  lemma BadPriceText(p: ProductIn, text: string)
    requires Parse(text) == None
    ensures ValidateProductIn(Dump(p)["price" := Str(text)]) == Failure([FieldError(Price, DecimalParsing)])
  {
    var obj := Dump(p)["price" := Str(text)];
    assert ErrorAt(obj, Name) + ErrorAt(obj, Quantity) == [];
    assert ErrorAt(obj, Price) == [FieldError(Price, DecimalParsing)];
    assert ErrorAt(obj, Status) == [];
    var errs := ErrorAt(obj, Name) + ErrorAt(obj, Quantity) + ErrorAt(obj, Price) + ErrorAt(obj, Status);
    assert errs == [FieldError(Price, DecimalParsing)];
    assert ValidateProductIn(obj) == Failure(errs);
  }

  // ---------------------------------------------------------------------
  // Rendering of the error list
  // ---------------------------------------------------------------------

  function TypeName(k: ErrorType): string {
    match k
    case Missing => "missing"
    case StringType => "string_type"
    case IntType => "int_type"
    case BoolType => "bool_type"
    case DecimalParsing => "decimal_parsing"
    case DecimalType => "decimal_type"
  }

  function MessageOf(k: ErrorType): string {
    match k
    case Missing => "Field required"
    case StringType => "Input should be a valid string"
    case IntType => "Input should be a valid integer"
    case BoolType => "Input should be a valid boolean"
    case DecimalParsing => "Input should be a valid decimal"
    case DecimalType => "Decimal input should be an integer, float, string or Decimal object"
  }

  /** One entry as Python prints the error dict (type, loc and msg). */
  function RenderError(e: FieldError): string {
    "{'type': '" + TypeName(e.kind) + "', 'loc': ('" + Key(e.loc) + "',), 'msg': '" + MessageOf(e.kind) + "'}"
  }

  /** The entries separated by `, `; empty exactly when there are none. */
  function RenderEntries(errs: seq<FieldError>): (r: string)
    ensures |r| == 0 <==> |errs| == 0
  {
    if |errs| == 0 then ""
    else if |errs| == 1 then RenderError(errs[0])
    else RenderError(errs[0]) + ", " + RenderEntries(errs[1..])
  }

  /** The error list as Python prints a list. */
  function RenderErrors(errs: seq<FieldError>): string {
    "[" + RenderEntries(errs) + "]"
  }

  // ---------------------------------------------------------------------
  // Partial update
  // ---------------------------------------------------------------------

  /** `ProductUpdate`: every field optional, None meaning "leave as is". */
  datatype ProductUpdate = ProductUpdate(
    quantity: Option<int>,
    price: Option<Decimal>,
    status: Option<bool>,
    updatedAt: Option<Timestamp>)

  /** The payload with every field at its default. */
  const NoChanges := ProductUpdate(None, None, None, None)

  /** Validating a patch body: the price goes through `convert_decimal_128`. */
  function NewUpdate(quantity: Option<int>, price: Option<Decimal>, status: Option<bool>, updatedAt: Option<Timestamp>)
    : (u: ProductUpdate)
    ensures u.quantity == quantity && u.status == status && u.updatedAt == updatedAt
    ensures u.price == price
  {
    ProductUpdate(quantity, if price.Some? then Some(ToDecimal128(price.value)) else None, status, updatedAt)
  }

  /** The fields a `ProductUpdate` declares. */
  predicate Updatable(f: Field) {
    f == Quantity || f == Price || f == Status || f == UpdatedAt
  }

  /** `f` is among the fields `model_dump(exclude_none=True)` keeps: the payload sets it. */
  predicate Sets(u: ProductUpdate, f: Field) {
    match f
    case Quantity => u.quantity.Some?
    case Price => u.price.Some?
    case Status => u.status.Some?
    case UpdatedAt => u.updatedAt.Some?
    case _ => false
  }

  /** A payload sets only declared fields, and the default payload sets none. */
  lemma SetsUpdatable(u: ProductUpdate, f: Field)
    ensures Sets(u, f) ==> Updatable(f)
    ensures u == NoChanges ==> !Sets(u, f)
  {
  }

  /** Records `a` and `b` hold the same value in field `f`. */
  predicate Agree(f: Field, a: Product, b: Product) {
    match f
    case Id => a.id == b.id
    case Name => a.name == b.name
    case Quantity => a.quantity == b.quantity
    case Price => a.price == b.price
    case Status => a.status == b.status
    case CreatedAt => a.createdAt == b.createdAt
    case UpdatedAt => a.updatedAt == b.updatedAt
  }

  /** Record `p` holds, in every field `u` sets, the value `u` gives. */
  predicate Carries(u: ProductUpdate, p: Product) {
    (u.quantity.Some? ==> p.quantity == u.quantity.value)
    && (u.price.Some? ==> p.price == u.price.value)
    && (u.status.Some? ==> p.status == u.status.value)
    && (u.updatedAt.Some? ==> p.updatedAt == u.updatedAt.value)
  }

  /** `$set` of the payload's non-None fields on a document. */
  function Apply(p: Product, u: ProductUpdate): (r: Product)
    ensures Carries(u, r)
    ensures forall f :: !Sets(u, f) ==> Agree(f, p, r)
  {
    Product(
      p.id,
      p.name,
      u.quantity.GetOr(p.quantity),
      u.price.GetOr(p.price),
      u.status.GetOr(p.status),
      p.createdAt,
      u.updatedAt.GetOr(p.updatedAt))
  }

  /** A record is determined by the fields it agrees on with another one and the
      fields an update carries: whatever the update did not set, it kept. */
  lemma ApplyUnique(p: Product, u: ProductUpdate, r: Product)
    requires Carries(u, r)
    requires forall f :: !Sets(u, f) ==> Agree(f, p, r)
    ensures r == Apply(p, u)
  {
    assert Agree(Id, p, r) && Agree(Name, p, r) && Agree(CreatedAt, p, r);
    assert u.quantity.None? ==> Agree(Quantity, p, r);
    assert u.price.None? ==> Agree(Price, p, r);
    assert u.status.None? ==> Agree(Status, p, r);
    assert u.updatedAt.None? ==> Agree(UpdatedAt, p, r);
  }

  /** Id, name and creation time are never updatable. */
  lemma ApplyKeepsIdentity(p: Product, u: ProductUpdate)
    ensures Apply(p, u).id == p.id && Apply(p, u).name == p.name && Apply(p, u).createdAt == p.createdAt
  {
    assert !Sets(u, Id) && !Sets(u, Name) && !Sets(u, CreatedAt);
  }

  /** Setting the same fields twice is the same as setting them once. */
  lemma ApplyIdempotent(p: Product, u: ProductUpdate)
    ensures Apply(Apply(p, u), u) == Apply(p, u)
  {
  }

  /** A validated patch body sets exactly the fields it was given. */
  lemma NewUpdateSets(quantity: Option<int>, price: Option<Decimal>, status: Option<bool>,
                      updatedAt: Option<Timestamp>, f: Field)
    ensures Sets(NewUpdate(quantity, price, status, updatedAt), f) <==>
              || (f == Quantity && quantity.Some?)
              || (f == Price && price.Some?)
              || (f == Status && status.Some?)
              || (f == UpdatedAt && updatedAt.Some?)
  {
  }

  /** A price patched in as `7.500` is stored with its scale and prints as
      `7.500` again, not `7.5`. */
  lemma PatchedPriceText(p: Product, updatedAt: Option<Timestamp>)
    ensures Format(Apply(p, NewUpdate(None, Some(Decimal(false, 7500, 3)), None, updatedAt)).price) == "7.500"
  {
    PatchPrice();
  }

  /** The empty payload changes nothing. */
  lemma ApplyNoChanges(p: Product)
    ensures Apply(p, NoChanges) == p
  {
  }

  // ---------------------------------------------------------------------
  // Price filter
  // ---------------------------------------------------------------------

  /** `ProductFilterIn`: two optional price bounds. */
  datatype ProductFilter = ProductFilter(minPrice: Option<Decimal>, maxPrice: Option<Decimal>)

  /** Validating a filter: each given bound goes through `convert_decimal_128`. */
  function NewFilter(minPrice: Option<Decimal>, maxPrice: Option<Decimal>): (f: ProductFilter)
    ensures f.minPrice == minPrice && f.maxPrice == maxPrice
  {
    ProductFilter(
      if minPrice.Some? then Some(ToDecimal128(minPrice.value)) else None,
      if maxPrice.Some? then Some(ToDecimal128(maxPrice.value)) else None)
  }
}

=== FILE: product_usecase.dfy ===
/**
 * `ProductUsecase`: the products collection as an in-memory store, and each
 * usecase as a pure transition from a store and the call's arguments to the
 * next store and the call's outcome.
 */
module ProductUsecase {
  import opened Options
  import opened Decimals
  import Uuids
  import opened Exceptions
  import opened ProductSchema

  type Uuid = Uuids.Uuid

  /** The collection: the documents by their `id`, and the order `find()` yields them in. */
  datatype Store = Store(records: map<Uuid, Product>, order: seq<Uuid>)

  predicate Distinct(ids: seq<Uuid>) {
    forall i, j :: 0 <= i < j < |ids| ==> ids[i] != ids[j]
  }

  /** Each document is listed once, under its own id. */
  ghost predicate Valid(s: Store) {
    && Distinct(s.order)
    && (forall k :: k in s.records <==> k in s.order)
    && (forall k :: k in s.records ==> s.records[k].id == k)
  }

  const Empty := Store(map[], [])

  lemma EmptyValid()
    ensures Valid(Empty)
  {
  }

  /** The store after a call, and what the call returned or raised. */
  datatype Transition<+T> = Transition(next: Store, outcome: Outcome<T>)

  const NotFoundPrefix := "Product not found with filter: "

  /** The message of every `NotFoundException` the usecases raise: the fixed
      prefix, then the 36-character text of the id. */
  function NotFoundMessage(id: Uuid): (m: string)
    ensures |m| == |NotFoundPrefix| + 36
    ensures m[..|NotFoundPrefix|] == NotFoundPrefix
  {
    NotFoundPrefix + Uuids.Text(id)
  }

  /** What follows the prefix reads back as the id. */
  lemma NotFoundMessageNamesId(id: Uuid)
    ensures Uuids.Parse(NotFoundMessage(id)[|NotFoundPrefix|..]) == Some(id)
  {
    assert NotFoundMessage(id)[|NotFoundPrefix|..] == Uuids.Text(id);
    Uuids.ParseText(id);
  }

  /** The message names the id: different ids give different messages. */
  lemma NotFoundMessageInjective(a: Uuid, b: Uuid)
    requires NotFoundMessage(a) == NotFoundMessage(b)
    ensures a == b
  {
    NotFoundMessageNamesId(a);
    NotFoundMessageNamesId(b);
  }

  const BadRequestPrefix := "errors: "

  /** The message of the `BadRequestException` create raises: the fixed
      prefix, then the error list in Python's bracketed form. */
  function BadRequestMessage(errs: seq<FieldError>): (m: string)
    ensures |m| >= |BadRequestPrefix| + 2
    ensures m[..|BadRequestPrefix|] == BadRequestPrefix
    ensures m[|BadRequestPrefix|] == '[' && m[|m| - 1] == ']'
    ensures |errs| == 0 <==> m == BadRequestPrefix + "[]"
  {
    var m := BadRequestPrefix + RenderErrors(errs);
    assert m[..|BadRequestPrefix|] == BadRequestPrefix;
    m
  }

  // ---------------------------------------------------------------------
  // Sequence helpers
  // ---------------------------------------------------------------------

  /** `ids` without `x`, in the same order. */
  function Without(ids: seq<Uuid>, x: Uuid): (r: seq<Uuid>)
    ensures forall k :: k in r <==> k in ids && k != x
    ensures Distinct(ids) ==> Distinct(r)
    ensures |r| <= |ids|
  {
    if |ids| == 0 then []
    else
      var rest := Without(ids[1..], x);
      assert forall k :: k in ids <==> k == ids[0] || k in ids[1..];
      if ids[0] == x then rest
      else
        assert Distinct(ids) ==> ids[0] !in ids[1..];
        [ids[0]] + rest
  }

  lemma {:induction false} WithoutAppend(a: seq<Uuid>, b: seq<Uuid>, x: Uuid)
    ensures Without(a + b, x) == Without(a, x) + Without(b, x)
  {
    if |a| > 0 {
      assert (a + b)[1..] == a[1..] + b;
      WithoutAppend(a[1..], b, x);
    } else {
      assert a + b == b;
    }
  }

  lemma {:induction false} WithoutAbsent(ids: seq<Uuid>, x: Uuid)
    requires x !in ids
    ensures Without(ids, x) == ids
  {
    if |ids| > 0 {
      assert ids[0] != x;
      WithoutAbsent(ids[1..], x);
      assert ids == [ids[0]] + ids[1..];
    }
  }

  /** The ids a sequence lists. */
  function Elements(ids: seq<Uuid>): set<Uuid> {
    set k | k in ids
  }

  /** A repetition-free sequence has as many elements as its set of elements. */
  lemma {:induction false} DistinctCardinality(ids: seq<Uuid>)
    requires Distinct(ids)
    ensures |Elements(ids)| == |ids|
  {
    if |ids| > 0 {
      var tail := ids[1..];
      assert Distinct(tail) by {
        forall i, j | 0 <= i < j < |tail| ensures tail[i] != tail[j] {
          assert tail[i] == ids[i + 1] && tail[j] == ids[j + 1];
        }
      }
      DistinctCardinality(tail);
      assert ids[0] !in tail by {
        forall j | 0 <= j < |tail| ensures tail[j] != ids[0] {
          assert tail[j] == ids[j + 1];
        }
      }
      assert Elements(ids) == Elements(tail) + {ids[0]} by {
        assert ids == [ids[0]] + tail;
      }
    }
  }

  /** A valid store holds as many documents as its order lists. */
  lemma RecordCount(s: Store)
    requires Valid(s)
    ensures |s.records| == |s.order|
  {
    DistinctCardinality(s.order);
    assert s.records.Keys == Elements(s.order);
  }

  // ---------------------------------------------------------------------
  // Usecases
  // ---------------------------------------------------------------------

  /** `create`: validate the dumped input again, insert the new document and
      return it; a validation failure raises `BadRequestException` and inserts
      nothing. The id source promises an id the collection does not hold. */
  function Create(s: Store, fields: map<string, FieldValue>, freshId: Uuid, now: Timestamp): (r: Transition<Product>)
    requires freshId !in s.records
    ensures ValidateProductIn(fields).Failure? ==>
              r.next == s && r.outcome == Raise(BadRequest(BadRequestMessage(ValidateProductIn(fields).error)))
    ensures ValidateProductIn(fields).Success? ==>
              && r.outcome.Ok?
              && InputOf(r.outcome.value) == ValidateProductIn(fields).value
              && r.outcome.value.id == freshId
              && r.outcome.value.createdAt == now && r.outcome.value.updatedAt == now
              && r.next.records == s.records[freshId := r.outcome.value]
              && r.next.order == s.order + [freshId]
    ensures |r.next.records| == |s.records| + (if r.outcome.Ok? then 1 else 0)
  {
    match ValidateProductIn(fields)
    case Failure(errs) => Transition(s, Raise(BadRequest(BadRequestMessage(errs))))
    case Success(input) =>
      var p := NewProduct(input, freshId, now);
      Transition(Store(s.records[freshId := p], s.order + [freshId]), Ok(p))
  }

  /** `get`: the document with that id, or `NotFoundException`. A read leaves
      the store as it is, so it returns only the outcome. */
  function Get(s: Store, id: Uuid): (r: Outcome<Product>)
    ensures r.Ok? <==> id in s.records
    ensures r.Ok? ==> r.value == s.records[id]
    ensures r.Raise? ==> r.error == NotFound(NotFoundMessage(id))
  {
    if id in s.records then Ok(s.records[id]) else Raise(NotFound(NotFoundMessage(id)))
  }

  /** No two documents of `ps` share an id. */
  predicate DistinctIds(ps: seq<Product>) {
    forall i, j :: 0 <= i < j < |ps| ==> ps[i].id != ps[j].id
  }

  /** The documents stored under `ids`, in that order. */
  function Documents(records: map<Uuid, Product>, ids: seq<Uuid>): (r: seq<Product>)
    requires forall k :: k in ids ==> k in records
    ensures |r| == |ids|
    ensures forall i :: 0 <= i < |ids| ==> r[i] == records[ids[i]]
  {
    if |ids| == 0 then [] else [records[ids[0]]] + Documents(records, ids[1..])
  }

  /** `query`: every document, in collection order. */
  function Query(s: Store): (r: seq<Product>)
    requires Valid(s)
    ensures |r| == |s.records|
    ensures forall i :: 0 <= i < |r| ==> r[i].id in s.records && s.records[r[i].id] == r[i]
    ensures forall k :: k in s.records ==> s.records[k] in r
    ensures DistinctIds(r)
    ensures |r| == |s.order| && forall i :: 0 <= i < |r| ==> r[i].id == s.order[i]
  {
    var r := Documents(s.records, s.order);
    RecordCount(s);
    QueryListsAll(s, r);
    r
  }

  lemma QueryListsAll(s: Store, r: seq<Product>)
    requires Valid(s)
    requires |r| == |s.order| && forall i :: 0 <= i < |r| ==> r[i] == s.records[s.order[i]]
    ensures forall i :: 0 <= i < |r| ==> r[i].id == s.order[i]
    ensures forall k :: k in s.records ==> s.records[k] in r
  {
    forall k | k in s.records
      ensures s.records[k] in r
    {
      var i :| 0 <= i < |s.order| && s.order[i] == k;
      assert r[i] == s.records[k];
    }
  }

  /** `price` lies strictly between the bounds (`$gt` and `$lt`). */
  predicate InRange(p: Product, low: Decimal, high: Decimal) {
    Less(low, p.price) && Less(p.price, high)
  }

  /** The documents of `ps` in the price range, in their order. */
  function Within(ps: seq<Product>, low: Decimal, high: Decimal): (r: seq<Product>)
    ensures forall p :: p in r <==> p in ps && InRange(p, low, high)
    ensures DistinctIds(ps) ==> DistinctIds(r)
    ensures |r| <= |ps|
  {
    if |ps| == 0 then []
    else
      var rest := Within(ps[1..], low, high);
      assert forall p :: p in ps <==> p == ps[0] || p in ps[1..];
      if InRange(ps[0], low, high) then
        assert DistinctIds(ps) ==> DistinctIds(ps[1..]) && forall p :: p in ps[1..] ==> p.id != ps[0].id;
        [ps[0]] + rest
      else rest
  }

  /** `get_by_price`: the documents with `min_price < price < max_price`, once
      each. Both bounds must be present (the route always supplies them). */
  function GetByPrice(s: Store, filter: ProductFilter): (r: seq<Product>)
    requires Valid(s)
    requires filter.minPrice.Some? && filter.maxPrice.Some?
    ensures forall p :: p in r <==>
              p.id in s.records && s.records[p.id] == p && InRange(p, filter.minPrice.value, filter.maxPrice.value)
    ensures DistinctIds(r)
    ensures |r| <= |s.records|
  {
    var all := Query(s);
    var r := Within(all, filter.minPrice.value, filter.maxPrice.value);
    assert forall p :: p in r <==>
             p.id in s.records && s.records[p.id] == p && InRange(p, filter.minPrice.value, filter.maxPrice.value) by {
      forall p ensures p in all <==> p.id in s.records && s.records[p.id] == p {
        QueryMember(s, all, p);
      }
    }
    r
  }

  /** A record is listed by `query` exactly when it is stored under its id. */
  lemma QueryMember(s: Store, all: seq<Product>, p: Product)
    requires Valid(s) && all == Query(s)
    ensures p in all <==> p.id in s.records && s.records[p.id] == p
  {
    if p in all {
      var i :| 0 <= i < |all| && all[i] == p;
    }
  }

  /** `update`: stamp `updated_at` with the clock unless the payload gives one,
      `$set` the payload's non-None fields on the document with that id and
      return the document after the update; with no such document, raise
      `NotFoundException` and change nothing. */
  function Update(s: Store, id: Uuid, u: ProductUpdate, now: Timestamp): (r: Transition<Product>)
    ensures r.outcome.Ok? <==> id in s.records
    ensures r.outcome.Raise? ==> r.next == s && r.outcome.error == NotFound(NotFoundMessage(id))
    ensures r.outcome.Ok? ==>
              && r.next.order == s.order
              && r.next.records == s.records[id := r.outcome.value]
              && r.outcome.value.updatedAt == u.updatedAt.GetOr(now)
              && Carries(u, r.outcome.value)
              && (forall f :: f != UpdatedAt && !Sets(u, f) ==> Agree(f, s.records[id], r.outcome.value))
  {
    var stamped := if u.updatedAt.None? then u.(updatedAt := Some(now)) else u;
    if id in s.records then
      var p := Apply(s.records[id], stamped);
      assert forall f :: f != UpdatedAt && !Sets(u, f) ==> !Sets(stamped, f);
      Transition(Store(s.records[id := p], s.order), Ok(p))
    else
      Transition(s, Raise(NotFound(NotFoundMessage(id))))
  }

  /** `delete`: remove the document with that id and return true; with no such
      document, raise `NotFoundException` and change nothing. */
  function Delete(s: Store, id: Uuid): (r: Transition<bool>)
    ensures r.outcome.Ok? <==> id in s.records
    ensures r.outcome.Raise? ==> r.next == s && r.outcome.error == NotFound(NotFoundMessage(id))
    ensures r.outcome.Ok? ==> r.outcome.value && r.next.records == s.records - {id}
    ensures forall k :: k in r.next.order <==> k in s.order && (r.outcome.Raise? || k != id)
  {
    if id in s.records then
      Transition(Store(s.records - {id}, Without(s.order, id)), Ok(true))
    else
      Transition(s, Raise(NotFound(NotFoundMessage(id))))
  }

  // ---------------------------------------------------------------------
  // The store invariant
  // ---------------------------------------------------------------------

  lemma CreatePreservesValid(s: Store, fields: map<string, FieldValue>, freshId: Uuid, now: Timestamp)
    requires Valid(s) && freshId !in s.records
    ensures Valid(Create(s, fields, freshId, now).next)
  {
    var r := Create(s, fields, freshId, now);
    if r.outcome.Ok? {
      var order := s.order + [freshId];
      assert freshId !in s.order;
      assert forall i :: 0 <= i < |s.order| ==> order[i] == s.order[i];
      assert forall k :: k in order <==> k in s.order || k == freshId;
    }
  }

  lemma UpdatePreservesValid(s: Store, id: Uuid, u: ProductUpdate, now: Timestamp)
    requires Valid(s)
    ensures Valid(Update(s, id, u, now).next)
  {
    var r := Update(s, id, u, now);
    if r.outcome.Ok? {
      assert Agree(Id, s.records[id], r.outcome.value);
    }
  }

  lemma DeletePreservesValid(s: Store, id: Uuid)
    requires Valid(s)
    ensures Valid(Delete(s, id).next)
  {
  }

  // ---------------------------------------------------------------------
  // How the usecases combine
  // ---------------------------------------------------------------------

  /** A price text that is not a decimal makes create raise `BadRequestException`
      whose message starts with `errors: ` and lists the one `decimal_parsing`
      error on `price`; nothing is inserted. */
  lemma CreateBadPrice(s: Store, input: ProductIn, text: string, freshId: Uuid, now: Timestamp)
    requires freshId !in s.records
    requires Parse(text) == None
    ensures Create(s, Dump(input)["price" := Str(text)], freshId, now) ==
            Transition(s, Raise(BadRequest(BadRequestMessage([FieldError(Price, DecimalParsing)]))))
    ensures BadRequestMessage([FieldError(Price, DecimalParsing)])[..8] == "errors: "
  {
    BadPriceText(input, text);
  }

  /** A created document can be read back by its id, exactly as returned. */
  lemma CreateThenGet(s: Store, fields: map<string, FieldValue>, freshId: Uuid, now: Timestamp)
    requires freshId !in s.records
    requires Create(s, fields, freshId, now).outcome.Ok?
    ensures Get(Create(s, fields, freshId, now).next, freshId) == Create(s, fields, freshId, now).outcome
  {
  }

  /** Deleting what was just created restores the store exactly. */
  lemma CreateThenDelete(s: Store, fields: map<string, FieldValue>, freshId: Uuid, now: Timestamp)
    requires Valid(s) && freshId !in s.records
    requires Create(s, fields, freshId, now).outcome.Ok?
    ensures Delete(Create(s, fields, freshId, now).next, freshId) == Transition(s, Ok(true))
  {
    var created := Create(s, fields, freshId, now).next;
    OrderRestored(s.order, freshId);
    assert created.records - {freshId} == s.records;
  }

  lemma OrderRestored(order: seq<Uuid>, x: Uuid)
    requires x !in order
    ensures Without(order + [x], x) == order
  {
    WithoutAppend(order, [x], x);
    WithoutAbsent(order, x);
    assert Without([x], x) == [];
    assert order + [] == order;
  }

  /** Delete succeeds once: afterwards the id is gone and a second delete,
      like a get, raises not-found without changing anything. */
  lemma DeleteTwice(s: Store, id: Uuid)
    requires Delete(s, id).outcome.Ok?
    ensures Delete(Delete(s, id).next, id) == Transition(Delete(s, id).next, Raise(NotFound(NotFoundMessage(id))))
    ensures Get(Delete(s, id).next, id) == Raise(NotFound(NotFoundMessage(id)))
  {
  }

  /** After an update, get returns the updated document. */
  lemma UpdateThenGet(s: Store, id: Uuid, u: ProductUpdate, now: Timestamp)
    requires Update(s, id, u, now).outcome.Ok?
    ensures Get(Update(s, id, u, now).next, id) == Update(s, id, u, now).outcome
  {
  }

  /** Repeating an update with the same payload and clock changes nothing more. */
  lemma UpdateIdempotent(s: Store, id: Uuid, u: ProductUpdate, now: Timestamp)
    ensures Update(Update(s, id, u, now).next, id, u, now) == Update(s, id, u, now)
  {
    var stamped := if u.updatedAt.None? then u.(updatedAt := Some(now)) else u;
    if id in s.records {
      ApplyIdempotent(s.records[id], stamped);
    }
  }

  /** An update touches one document: every other one, and the set of ids, stay. */
  lemma UpdateTouchesOne(s: Store, id: Uuid, u: ProductUpdate, now: Timestamp)
    ensures Update(s, id, u, now).next.records.Keys == s.records.Keys
    ensures forall k :: k in s.records && k != id ==> Update(s, id, u, now).next.records[k] == s.records[k]
  {
  }

  /** Nothing ties `updated_at` to `created_at`: a payload may carry an
      `updated_at` earlier than the document's creation. */
  lemma UpdatedBeforeCreated(s: Store, input: ProductIn, freshId: Uuid, now: Timestamp)
    requires freshId !in s.records
    ensures var created := Create(s, Dump(input), freshId, now);
            var updated := Update(created.next, freshId, NoChanges.(updatedAt := Some(now - 1)), now + 1);
            updated.outcome.Ok? && updated.outcome.value.updatedAt < updated.outcome.value.createdAt
  {
    ValidateDump(input);
  }
}

=== FILE: uuids.dfy ===
/**
 * Product identifiers: 128-bit UUIDs and the canonical text `str(uuid)`
 * prints, which is what the not-found messages embed.
 */
module Uuids {
  import opened Options
  import opened Powers

  /** A UUID is a 128-bit number, i.e. 32 hexadecimal digits. */
  type Uuid = n: nat | n < Pow(16, 32)

  const HexAlphabet: string := "0123456789abcdef"

  predicate IsHex(c: char) {
    '0' <= c <= '9' || 'a' <= c <= 'f'
  }

  predicate AllHex(s: string) {
    forall i :: 0 <= i < |s| ==> IsHex(s[i])
  }

  /** The lower-case hex digit of `d`. */
  function HexChar(d: nat): (c: char)
    requires d < 16
    ensures IsHex(c)
  {
    HexAlphabet[d]
  }

  /** The value of one hex digit. */
  function HexDigitValue(c: char): (d: nat)
    requires IsHex(c)
    ensures d < 16
    ensures HexChar(d) == c
  {
    if c <= '9' then c as int - '0' as int else c as int - 'a' as int + 10
  }

  /** The `width` low hex digits of `n`, most significant first, zero-padded. */
  function HexDigits(n: nat, width: nat): (s: string)
    ensures |s| == width
    ensures AllHex(s)
  {
    if width == 0 then "" else HexDigits(n / 16, width - 1) + [HexChar(n % 16)]
  }

  /** The number a string of hex digits denotes. */
  function HexValue(s: string): (n: nat)
    requires AllHex(s)
    ensures n < Pow(16, |s|)
  {
    if |s| == 0 then 0
    else
      var init := s[..|s| - 1];
      assert AllHex(init) by {
        forall i | 0 <= i < |init| ensures IsHex(init[i]) {
          assert init[i] == s[i];
        }
      }
      HexValue(init) * 16 + HexDigitValue(s[|s| - 1])
  }

  /** Reading back `width` digits of a number that fits in them gives the number. */
  lemma {:induction false} HexValueDigits(n: nat, width: nat)
    requires n < Pow(16, width)
    ensures HexValue(HexDigits(n, width)) == n
  {
    if width > 0 {
      var s := HexDigits(n, width);
      var init := HexDigits(n / 16, width - 1);
      assert s == init + [HexChar(n % 16)];
      assert s[..|s| - 1] == init;
      assert HexDigitValue(s[|s| - 1]) == n % 16;
      DivideByBase(n, width);
      HexValueDigits(n / 16, width - 1);
      assert HexValue(s) == HexValue(init) * 16 + n % 16;
    }
  }

  lemma DivideByBase(n: nat, width: nat)
    requires width > 0 && n < Pow(16, width)
    ensures n / 16 < Pow(16, width - 1)
    ensures n == n / 16 * 16 + n % 16
  {
  }

  /** The position of the four hyphens in the 36-character form. */
  predicate IsHyphenAt(i: int) {
    i == 8 || i == 13 || i == 18 || i == 23
  }

  /** `str(uuid)`: 32 lower-case hex digits in groups of 8-4-4-4-12. */
  function Text(u: Uuid): (r: string)
    ensures |r| == 36
    ensures forall i :: 0 <= i < 36 && IsHyphenAt(i) ==> r[i] == '-'
    ensures Digits(r) == HexDigits(u, 32)
  {
    var h := HexDigits(u, 32);
    var r := h[..8] + "-" + h[8..12] + "-" + h[12..16] + "-" + h[16..20] + "-" + h[20..];
    assert r[..8] == h[..8];
    assert r[9..13] == h[8..12];
    assert r[14..18] == h[12..16];
    assert r[19..23] == h[16..20];
    assert r[24..] == h[20..];
    assert h == h[..8] + h[8..12] + h[12..16] + h[16..20] + h[20..];
    r
  }

  /** The 32 digits of a 36-character text with its hyphens removed. */
  function Digits(t: string): string
    requires |t| == 36
  {
    t[..8] + t[9..13] + t[14..18] + t[19..23] + t[24..]
  }

  /** The canonical form read back, or None when `t` is not in that form. */
  function Parse(t: string): (r: Option<Uuid>)
    ensures r.Some? ==> |t| == 36
    ensures r.Some? ==> forall i :: 0 <= i < 36 && IsHyphenAt(i) ==> t[i] == '-'
  {
    if |t| == 36 && t[8] == '-' && t[13] == '-' && t[18] == '-' && t[23] == '-'
       && AllHex(Digits(t))
    then
      assert |Digits(t)| == 32;
      Some(HexValue(Digits(t)))
    else None
  }

  /** The text of an id reads back as that id. */
  lemma ParseText(u: Uuid)
    ensures Parse(Text(u)) == Some(u)
  {
    HexValueDigits(u, 32);
  }

  /** Different ids print differently, so a message embedding the text names exactly one id. */
  lemma TextInjective(a: Uuid, b: Uuid)
    requires Text(a) == Text(b)
    ensures a == b
  {
    ParseText(a);
    ParseText(b);
  }
}
